=== FILE: README.md ===
# Documentation generator: a Dafny model

The repository turns annotated source files into one HTML page per file. It
has two copies of `DocumentationGenerator.generate_documentation`: a
command-line one (`test.py`) and one behind a graphical front end
(`test2.py`). Each run does four things:

- It selects the files to document from a directory walk. A regular-expression
  filter on the file name applies only when one is given and it is not empty.
- It reads each file and takes up to four fields out of its text with
  `re.search` and the pattern `/\*[\s\*]*TAG(.+?)\*/`. The tags are
  `File: `, `Description: `, `#include` and `@Param`. A missing field falls
  back to the base name (for the title) or to a fixed sentence.
- It renders a fixed HTML template with the fields inserted verbatim, with
  no escaping. The command-line copy writes four fields; the graphical copy
  writes two.
- It writes the page to `<output dir>/<stem of base name>.html`, replacing any
  file already there.

The model is pure Dafny with no I/O:

- `TagPattern` states what the regular expression accepts and when the search
  reports it (`Fits`, `Matches`, `NoMatch`). It also computes the search by
  hand (`MatchAt`, `FindFrom`, `Find`, `Extract`). The contracts prove the hand
  search sound, complete and leftmost. Python's `\s` is the exact set of
  characters `str.isspace` accepts.
- `Paths` models POSIX `basename`, two-argument `join` and `splitext`, and
  from them the output name.
- `Page` models each page twice: as the chunks the generator writes in order,
  and as a document of lines. `PageFacts` proves the two views equal, that
  splitting the page at newlines gives the lines back when neither the
  fields nor the base name hold a newline, and that the two-field page is
  the four-field one with two lines removed.
- `Selection` models the selection loop as a method over a given walk
  listing. It is checked against a recursive definition, and `SelectionFacts`
  states the result as an order-preserving filter of every walked path.
- `Generator` and `GeneratorFacts` cover the whole run. Fields get fallbacks,
  one page is made per selected file, and the pages are written into the
  output directory, modelled as a map from path to text where a later write
  replaces an earlier one. `Generator.Run` reads each file when its turn
  comes, so a file that an earlier page has replaced is read as that page;
  `FullRun` and `ShortRun` list the pages of the texts as they were before
  the run, and `GeneratorFacts.RunReadsOriginals` proves the two agree when
  no selected file is an earlier file's output path.

When X and Y hold no `/`, a block `/* File: X\n * Description: Y\n */`
matches neither the title's pattern nor the description's. `.` does not
match a newline, so the title's group cannot reach the `*/`. The
description tag does not follow the block's only `/*`. So both fields fall
back (`TagPatternFacts.TwoLineBlockMatchesNeither`).

## Model

| member | source | states |
|---|---|---|
| TagPattern.TagText | test.py:53-74 | each of the four tags is non-empty and starts with a character outside `[\s\*]`, so the greedy run before it never has to give characters back |
| TagPattern.RunEnd | test.py:53 | the greedy `[\s\*]*` run from `j` covers only class characters and stops at the first character outside the class or at the end of the text |
| TagPattern.CloseFrom | test.py:53 | the lazy group stops at the first `*/` at or after `e` that is not behind a newline; it is None exactly when every later `*/` is behind a newline |
| TagPattern.FitsTagAfterMaximalRun | test.py:53 | whatever way the pattern matches at a `/*`, the tag starts exactly where the maximal run of `[\s\*]` ends |
| TagPattern.NoFitWithoutTag | test.py:53 | if the tag does not follow the maximal run, the pattern cannot match at that `/*` |
| TagPattern.NoFitWithoutClose | test.py:53 | if the group cannot take a first non-newline character, or cannot reach a `*/` without a newline, the pattern cannot match at that `/*` |
| TagPattern.MatchFromClose | test.py:53 | a tag after the maximal run, a first group character and the lazy close together form the match the search reports at that `/*` |
| TagPattern.MatchAt | test.py:53 | trying the pattern at one index gives the reported match opening there, or None exactly when no way of matching opens there |
| TagPattern.FindFrom | test.py:53 | the result is the reported match at the first index from `i` on where the pattern can match; None exactly when it can match at no index from `i` on |
| TagPattern.Find | test.py:53 | `re.search` is None exactly when the pattern matches nowhere; otherwise it is the reported match at the leftmost `/*` that admits one |
| TagPattern.Extract | test.py:53-55 | `group(1)` is None exactly when the pattern matches nowhere; otherwise it is the text of the leftmost match's group |
| TagPatternFacts.MatchIsUnique | test.py:53 | at one `/*` the search can report at most one group |
| TagPatternFacts.MatchedGroupShape | test.py:53 | a reported group is non-empty, holds no newline, and holds no `*/` after its first character |
| TagPatternFacts.CaptureShape | test.py:55 | every capture, for any of the four tags, has that shape: non-empty, single-line, and cut at the first `*/` the lazy group can reach |
| TagPatternFacts.MatchInContext | test.py:53 | around a reported match, the text reads: `/*`, a maximal run of `[\s\*]`, the tag, the group, then `*/` |
| TagPatternFacts.CaptureInContext | test.py:67-69 | a capture sits right after the tag, with nothing skipped, so a space after `#include` or `@Param` stays in it; a `*/` follows it directly |
| TagPatternFacts.RunEndIsFirstNonRun | test.py:53 | the greedy run ends at the first character outside `[\s\*]` |
| TagPatternFacts.NoOpeningNoCapture | test.py:53-78 | a text with no `/*` gives no capture for any tag |
| TagPatternFacts.DecoratedBlockYieldsText | test.py:74-76 | `/*`, any decoration, a tag, a text with no newline and no `*`, then `*/` yields exactly that text, with no trimming |
| TagPatternFacts.TwoLineBlockMatchesNeither | test2.py:32-42 | a title and a description on successive lines of one comment block are both missed, so both fall back |
| Paths.Basename | test.py:57 | the base name is a suffix with no `/` that is either the whole path or follows a `/` |
| Paths.BasenameUnique | test.py:57 | any suffix with no `/` that is the whole path or follows a `/` is the base name |
| Paths.Join | test.py:41 | an absolute name replaces the directory; otherwise the path starts with the directory, ends with the name, and has a `/` between them when the directory is not empty |
| Paths.JoinRelative | test.py:41 | a name that does not start with `/` is joined as the directory, one `/` unless the directory is empty or already ends in one, then the name |
| Paths.DirectlyIn | test.py:41 | a path that starts with the directory, has the name as its base name and is exactly as long as the joined form is the joined form: the name sits directly in the directory |
| Paths.BasenameOfJoin | test.py:41 | the base name of a directory joined with a file name that has no `/` is that file name |
| Paths.Splitext | test.py:81 | root followed by extension is the path; the extension is non-empty exactly when the last component has a dot after some non-dot character; a non-empty extension starts with its only dot and holds no `/` |
| Paths.Stem | test.py:81 | the stem is a prefix of the name; with an extension it stops right before the last dot, which is followed by no other dot; without one it is the whole name |
| Paths.OutputName | test.py:81 | the output name ends in `.html`, holds no `/`, and is the `splitext` stem of the base name followed by `.html` |
| Paths.OutputPath | test.py:81 | the output path is the output name directly inside the output directory: the directory, one `/` unless it is empty or already ends in one, then the name |
| PathsFacts.SplitextCutsAtLastDot | test.py:81 | a name with an extension loses exactly the part from its last dot |
| PathsFacts.StemOfDottedName | test.py:81 | the stem of `n.x`, where `n` is not all dots and `x` has no dot, is `n` |
| PathsFacts.OutputNameDropsLastExtension | test2.py:44 | `dir/n.x` is documented in `n.html`: only the final extension is dropped |
| PathsFacts.OutputNameKeepsLeadingDotName | test.py:81 | `dir/.name` is documented in `.name.html`: a leading dot does not start an extension |
| Page.FullPage | test.py:83-91 | the four-field page starts with the document type and `<html>` and `<head>` lines |
| Page.ShortPage | test2.py:46-52 | the two-field page starts the same way |
| PageFacts.ChunksWriteDocument | test.py:83-91 | chunks that each write one run of lines, the runs in order and covering all the lines, write the whole document |
| PageFacts.FullPageIsDocument | test.py:83-91 | the eight chunks of the four-field page write its thirteen lines, each ended by a newline |
| PageFacts.ShortPageIsDocument | test2.py:46-52 | the six chunks of the two-field page write its eleven lines |
| PageFacts.FullPageExtendsShortPage | test2.py:46-52 | for the same title, description and base name, the four-field page is the two-field page with the references and read-data paragraphs inserted before the closing tags |
| PageFacts.PagesFramed | test.py:83-91 | both pages open with the document type and head, and end with the `</body>` and `</html>` lines |
| PageFacts.LinesRoundTrip | test.py:83-91 | splitting newline-ended lines that hold no newline gives the lines back |
| PageFacts.FullPageLines | test.py:84-90 | when no field and not the base name holds a newline, the page splits into exactly its thirteen lines, with the title in both `<title>` and `<h1>` and the labelled paragraphs on their own lines |
| PageFacts.ShortPageDropsTwoLines | test2.py:46-52 | the two-field page is the four-field document with its references and read-data lines removed |
| Selection.JoinAll | test.py:45 | the joined list has one path per file, in order; each file name without a `/` is the base name of its path, the path starts with the directory, and it is exactly as long as the directory, one separator where needed, and the name |
| SelectionFacts.JoinAllDirectlyIn | test.py:41-45 | each joined path of a plain file name is the directory, one `/` unless it already ends in one, then the name |
| Selection.SelectFiles | test.py:31-45 | the selection loop yields the recursive definition of the candidates; with no filter, or a blank one, it yields every walked path |
| SelectionFacts.FilterSeq | test.py:37-41 | a path is in the filtered list exactly when it is in the input and the filter keeps it |
| SelectionFacts.FilterSeqAppend | test.py:37-41 | filtering keeps order: filtering two runs one after the other is filtering each |
| SelectionFacts.KeptInIsFilter | test.py:38-41 | in one directory, the kept paths are the joined paths whose base name the filter matches, in order |
| SelectionFacts.FilteredIsFilterOfAll | test2.py:18-23 | with a filter, the selection is every walked path cut down, in order, to those whose base name matches |
| SelectionFacts.AllPathsAppend | test.py:44-45 | the paths of two walks one after the other are the paths of each, in order |
| SelectionFacts.UnfilteredIsEveryFile | test2.py:25-26 | without a filter, the files of walk entry `i` appear joined to their directory, after every earlier entry's and before every later one's |
| SelectionFacts.BlankFilterIsNoFilter | test2.py:18-26 | an empty filter text, as a blank entry field gives, selects every walked path, the same as no filter |
| Generator.FieldOr | test.py:59-64 | the field is the fallback exactly when the pattern matches nowhere, and otherwise the capture; it holds no newline when the fallback holds none |
| Generator.FullFields | test.py:52-78 | each field is its tag's capture when the pattern matches, and otherwise the fallback: the base name for the title, a fixed sentence for the others; description, references and read-data never hold a newline |
| Generator.FullDocument | test.py:80-91 | the page of a file is written to its output path, directly inside the output directory under the file's output name, and is the thirteen-line document of its fields |
| Generator.ShortDocument | test2.py:32-52 | the two-field generator writes to the same output path, and its page is the thirteen-line document of the four fields without the references and read-data lines |
| Generator.FullRun | test.py:48-91 | the command-line run makes one page per selected file, in selection order, at that file's output path, holding the line document of that file's fields |
| Generator.ShortRun | test2.py:28-52 | the graphical run makes one page per selected file, in selection order, at that file's output path, holding that file's line document without the references and read-data lines |
| Generator.WriteAll | test.py:82 | after the writes, the directory holds the old paths plus every written path; an old path that no page replaces keeps its text |
| GeneratorFacts.NoCommentsAllFallbacks | test.py:52-78 | a file with no `/*` gets its base name as title and the three fixed sentences |
| GeneratorFacts.ShortDocumentDropsTwoLines | test2.py:44-52 | for the same file, both generators write to the same path, and the two-field page is the four-field document without its references and read-data lines |
| GeneratorFacts.DocumentLines | test.py:80-91 | a generated page read back line by line shows each field on its own line when the base name holds no newline |
| GeneratorFacts.RunsWriteSamePaths | test2.py:44 | on the same inputs the two generators write the same number of pages, to the same paths, in the same order |
| GeneratorFacts.LastWriteWins | test.py:82 | the text left at a path is the page written there last |
| GeneratorFacts.WriteAllOverlays | test.py:82 | writing into a directory that already has files keeps every file no page replaces; the result is the old directory overlaid with the new pages |
| GeneratorFacts.WriteAllIdempotent | test.py:48-91 | writing the same pages again leaves the output directory unchanged |
| GeneratorFacts.SamePathIffSameName | test.py:81 | two source files go to the same output path exactly when their output names agree |
| GeneratorFacts.RunLeavesLastPage | test.py:81-91 | after a run, a selected file that no later selected file shares an output name with has its own page at its output path |
| GeneratorFacts.RunWritesOutputPaths | test.py:48-82 | a run adds the output path of every selected file to the output directory, and no other path |
| Generator.RunWrites | test.py:48-91 | the pages of a run that reads each file in its turn land at the files' output paths and at no other path |
| Generator.Run | test2.py:28-52 | after a run of either generator, the output directory holds its old paths plus every selected file's output path, and nothing else |
| GeneratorFacts.ReadsOriginals | test.py:48-91 | when no file is the output path of an earlier one, reading each file in its turn writes the same directory as writing the pages of the texts read before the run, in order |
| GeneratorFacts.RunReadsOriginals | test.py:48-91 | when no selected file is an earlier selected file's output path, a run of either generator leaves the directory overlaid with the pages `FullRun` or `ShortRun` lists |

## Left out

- The directory walk (`os.walk`) is not modelled. Selection takes the walk's listing as given: a sequence of (directory, file names) in walk order.
- Opening and reading source files is not modelled. A file's text before the run is a given function of its path; `Generator.Run` reads a file that an earlier page has replaced as that page. Text-mode decoding and newline translation are assumed to have happened already.
- Read, decode and permission failures are not modelled. In the source they stop the run part-way; the model assumes every file is read and every page is written.
- Writing pages is modelled as updating a map from path to text. Creating the directory and failed writes are not modelled.
- The progress message `print` (test.py:93) is left out.
- The user's filter is a parameter: a `matches(pattern, name)` function standing for `re.compile(...).match`. Compiling it, and its error on a bad expression, are not modelled.
- Only two-argument POSIX `join`, `basename` and `splitext` are modelled; Windows path rules are not.
- Command-line parsing and `main` (test.py:96-122) and the graphical front end (test2.py:57-112) are not modelled. The front end reads its entry fields into a generator, and refuses to run when the source or the output entry is blank (test2.py:63-65); the model takes the directory and the filter as given.
- The `profile` setting is stored but never read (test.py:22), so it is left out.
- `WriteAllIdempotent` is about writing the same pages twice. A second real run matches that only when the walk and the file contents are unchanged, for instance when the output directory is outside the source tree.
- Paths.Join: its own contract gives the prefix, the suffix and the separator, not the exact length; `JoinRelative` states the exact joined form.
- Page.FullPage: its own contract states only the opening lines; the full shape is in `PageFacts.FullPageIsDocument` and `PageFacts.PagesFramed`.
- Page.ShortPage: as for `FullPage`, its own contract states only the opening lines.
- Generator.FullRun: reads every selected file as it was before the run. That matches the source only when no selected file is the output path of an earlier one, for instance when the output directory is outside the walked tree; `Generator.Run` reads each file in its turn, and `GeneratorFacts.RunReadsOriginals` states when the two agree.
- Generator.ShortRun: reads every selected file as it was before the run, as for `FullRun`; it matches the source under the same condition.
- GeneratorFacts.RunLeavesLastPage: is about the pages `FullRun` lists, so the page it names is the one of the file's text before the run. It matches the source only when no selected file is the output path of an earlier one.

=== FILE: generator.dfy ===
// The generator end to end: select the files, take the fields out of each
// file's text, render its page, and write the pages into the output
// directory, one after another.  File contents are given as a function
// from path to text; the output directory is a map from path to page.
module Generator {
  import opened Options
  import opened Text
  import opened TagPattern
  import opened TagPatternFacts
  import opened Paths
  import opened Page
  import opened PageFacts
  import opened Selection

  const NoDescription := "No description available."
  const NoReferences := "No references available."
  const NoReadData := "No data param information available."

  // The capture for tag `t`, or `fallback` when the tag's pattern matches
  // nowhere.  A fallback without newlines gives a single-line field, since
  // captures never hold a newline.
  function FieldOr(content: string, t: Tag, fallback: string): (r: string)
    ensures NoMatch(content, t) ==> r == fallback
    ensures !NoMatch(content, t) ==> Extract(content, t).Some? && r == Extract(content, t).value
    ensures Free(fallback, '\n') ==> Free(r, '\n')
  {
    match Extract(content, t)
    case None => fallback
    case Some(v) =>
      CaptureShape(content, t);
      v
  }

  // The four fields of the command-line generator; the title falls back to
  // the base name of the source file, the others to fixed sentences.
  function FullFields(content: string, base: string): (r: Fields)
    ensures NoMatch(content, File) ==> r.title == base
    ensures NoMatch(content, Description) ==> r.description == NoDescription
    ensures NoMatch(content, Include) ==> r.references == NoReferences
    ensures NoMatch(content, Param) ==> r.readData == NoReadData
    ensures !NoMatch(content, File) ==> r.title == Extract(content, File).value
    ensures !NoMatch(content, Description) ==> r.description == Extract(content, Description).value
    ensures !NoMatch(content, Include) ==> r.references == Extract(content, Include).value
    ensures !NoMatch(content, Param) ==> r.readData == Extract(content, Param).value
    ensures Free(base, '\n') ==> Free(r.title, '\n')
    ensures Free(r.description, '\n') && Free(r.references, '\n') && Free(r.readData, '\n')
  {
    assert Free(NoDescription, '\n') && Free(NoReferences, '\n') && Free(NoReadData, '\n');
    Fields(FieldOr(content, File, base),
           FieldOr(content, Description, NoDescription),
           FieldOr(content, Include, NoReferences),
           FieldOr(content, Param, NoReadData))
  }

  // A page written to a path.
  datatype Written = Written(path: string, page: string)

  // What the command-line generator writes for the source file at `path`:
  // the thirteen-line page of its fields, at its output name inside
  // `outputDir`.
  function FullDocument(outputDir: string, path: string, content: string): (r: Written)
    ensures r.path == OutputPath(outputDir, path)
    ensures |r.path| >= |outputDir| && r.path[..|outputDir|] == outputDir
    ensures Basename(r.path) == OutputName(path)
    ensures var base := Basename(path);
      r.page == Unlines(FullLines(FullFields(content, base), base))
  {
    var base := Basename(path);
    var f := FullFields(content, base);
    FullPageIsDocument(f, base);
    Written(OutputPath(outputDir, path), FullPage(f, base))
  }

  // What the generator with the graphical front end writes for the source
  // file at `path`: only the title and the description are looked for, so
  // the page is the command-line one without its references and read-data
  // lines, at the same path.
  function ShortDocument(outputDir: string, path: string, content: string): (r: Written)
    ensures r.path == OutputPath(outputDir, path)
    ensures |r.path| >= |outputDir| && r.path[..|outputDir|] == outputDir
    ensures Basename(r.path) == OutputName(path)
    ensures var base := Basename(path);
      var ls := FullLines(FullFields(content, base), base);
      r.page == Unlines(ls[..9] + ls[11..])
  {
    var base := Basename(path);
    var title := FieldOr(content, File, base);
    var description := FieldOr(content, Description, NoDescription);
    var f := FullFields(content, base);
    ShortPageDropsTwoLines(title, description, f.references, f.readData, base);
    Written(OutputPath(outputDir, path), ShortPage(title, description, base))
  }

  // The pages of the command-line generator, one per selected file, in
  // selection order.
  function FullRun(walk: seq<WalkEntry>, filter: Option<string>, matches: (string, string) -> bool,
                   contentOf: string -> string, outputDir: string): (r: seq<Written>)
    ensures var files := Candidates(walk, filter, matches);
      && |r| == |files|
      && (forall k :: 0 <= k < |r| ==> r[k].path == OutputPath(outputDir, files[k]))
      && (forall k :: 0 <= k < |r| ==>
            var base := Basename(files[k]);
            r[k].page == Unlines(FullLines(FullFields(contentOf(files[k]), base), base)))
  {
    var files := Candidates(walk, filter, matches);
    seq(|files|, k requires 0 <= k < |files| => FullDocument(outputDir, files[k], contentOf(files[k])))
  }

  // The pages of the generator with the graphical front end.
  function ShortRun(walk: seq<WalkEntry>, filter: Option<string>, matches: (string, string) -> bool,
                    contentOf: string -> string, outputDir: string): (r: seq<Written>)
    ensures var files := Candidates(walk, filter, matches);
      && |r| == |files|
      && (forall k :: 0 <= k < |r| ==> r[k].path == OutputPath(outputDir, files[k]))
      && (forall k :: 0 <= k < |r| ==>
            var base := Basename(files[k]);
            var ls := FullLines(FullFields(contentOf(files[k]), base), base);
            r[k].page == Unlines(ls[..9] + ls[11..]))
  {
    var files := Candidates(walk, filter, matches);
    seq(|files|, k requires 0 <= k < |files| => ShortDocument(outputDir, files[k], contentOf(files[k])))
  }

  // The output directory after the pages are written in order; a later
  // page overwrites an earlier one with the same path.
  function WriteAll(dir: map<string, string>, ws: seq<Written>): (r: map<string, string>)
    ensures r.Keys == dir.Keys + (set k | 0 <= k < |ws| :: ws[k].path)
    ensures forall p :: p in dir && (forall k :: 0 <= k < |ws| ==> ws[k].path != p) ==> r[p] == dir[p]
  {
    if ws == [] then dir
    else
      var n := |ws| - 1;
      var front := WriteAll(dir, ws[..n]);
      assert (set k | 0 <= k < |ws| :: ws[k].path) == (set k | 0 <= k < n :: ws[..n][k].path) + {ws[n].path};
      front[ws[n].path := ws[n].page]
  }

  // Which of the two generators runs.
  datatype Flavour = CommandLine | Graphical

  // The page the chosen generator writes for a file with text `content`.
  function DocumentBy(g: Flavour, outputDir: string, path: string, content: string): (r: Written)
    ensures r.path == OutputPath(outputDir, path)
  {
    match g
    case CommandLine => FullDocument(outputDir, path, content)
    case Graphical => ShortDocument(outputDir, path, content)
  }

  // Where each source file's page goes.
  function OutputPathOf(outputDir: string): string -> string
  {
    p => OutputPath(outputDir, p)
  }

  // The page the chosen generator makes of a source file and its text.
  function PageOf(g: Flavour, outputDir: string): (string, string) -> string
  {
    (p, t) => DocumentBy(g, outputDir, p, t).page
  }

  // The values of `f` on the elements of `xs`.
  function Image(f: string -> string, xs: seq<string>): set<string>
  {
    if xs == [] then {}
    else Image(f, xs[..|xs| - 1]) + {f(xs[|xs| - 1])}
  }

  // The pages a run writes, in the order the source works: each file is
  // read when its turn comes, after the pages of the files before it are
  // written.  A selected file that one of those pages has replaced is read
  // as that page; any other file is read as it was before the run.  The
  // page of file `p` with text `t` is `render(p, t)`, written to `out(p)`;
  // so the keys are the files' output paths and nothing else.
  function RunWrites(out: string -> string, render: (string, string) -> string,
                     files: seq<string>, contentOf: string -> string): (w: map<string, string>)
    ensures w.Keys == Image(out, files)
  {
    if files == [] then map[]
    else
      var n := |files| - 1;
      var before := RunWrites(out, render, files[..n], contentOf);
      var p := files[n];
      var text := if p in before then before[p] else contentOf(p);
      before[out(p) := render(p, text)]
  }

  // The output directory after a run of generator `g`: the directory as it
  // was, overlaid with the pages of the run.
  function Run(g: Flavour, walk: seq<WalkEntry>, filter: Option<string>, matches: (string, string) -> bool,
               contentOf: string -> string, outputDir: string, dir: map<string, string>): (r: map<string, string>)
    ensures r.Keys == dir.Keys + Image(OutputPathOf(outputDir), Candidates(walk, filter, matches))
  {
    dir + RunWrites(OutputPathOf(outputDir), PageOf(g, outputDir), Candidates(walk, filter, matches), contentOf)
  }
}

// What a run of the generators leaves behind.
module GeneratorFacts {
  import opened Options
  import opened Text
  import opened TagPattern
  import opened TagPatternFacts
  import opened Paths
  import opened Page
  import opened PageFacts
  import opened Selection
  import opened Generator

  // A file with no comment opening at all gets every fallback: its base
  // name as title and the three fixed sentences.
  lemma NoCommentsAllFallbacks(content: string, base: string)
    requires forall i: nat :: !At(content, i, "/*")
    ensures FullFields(content, base) == Fields(base, NoDescription, NoReferences, NoReadData)
  {
    NoOpeningNoCapture(content, File);
    NoOpeningNoCapture(content, Description);
    NoOpeningNoCapture(content, Include);
    NoOpeningNoCapture(content, Param);
  }

  // For the same file both generators write to the same path, and the
  // two-field page is the four-field document without its references and
  // read-data lines.
  lemma ShortDocumentDropsTwoLines(outputDir: string, path: string, content: string)
    ensures var base := Basename(path);
      var ls := FullLines(FullFields(content, base), base);
      var full := FullDocument(outputDir, path, content);
      var short := ShortDocument(outputDir, path, content);
      && short.path == full.path
      && full.page == Unlines(ls)
      && short.page == Unlines(ls[..9] + ls[11..])
  {
    var base := Basename(path);
    var f := FullFields(content, base);
    FullPageIsDocument(f, base);
    ShortPageDropsTwoLines(f.title, f.description, f.references, f.readData, base);
  }

  // A page read back line by line shows each field on its own line, when
  // the base name holds no newline (captures and fallbacks never do).
  lemma DocumentLines(outputDir: string, path: string, content: string)
    requires Free(Basename(path), '\n')
    ensures var base := Basename(path);
      SplitLines(FullDocument(outputDir, path, content).page) == FullLines(FullFields(content, base), base)
  {
    var base := Basename(path);
    FullPageLines(FullFields(content, base), base);
  }

  // The two generators, run on the same walk, filter and file contents,
  // write their pages to the same paths in the same order.
  lemma RunsWriteSamePaths(walk: seq<WalkEntry>, filter: Option<string>, matches: (string, string) -> bool,
                           contentOf: string -> string, outputDir: string)
    ensures var full := FullRun(walk, filter, matches, contentOf, outputDir);
      var short := ShortRun(walk, filter, matches, contentOf, outputDir);
      && |short| == |full|
      && forall k :: 0 <= k < |full| ==> short[k].path == full[k].path
  {
  }

  // The page left at a path is the one written there last.
  lemma {:induction false} LastWriteWins(dir: map<string, string>, ws: seq<Written>, k: nat)
    requires k < |ws|
    requires forall j :: k < j < |ws| ==> ws[j].path != ws[k].path
    ensures ws[k].path in WriteAll(dir, ws)
    ensures WriteAll(dir, ws)[ws[k].path] == ws[k].page
  {
    var n := |ws| - 1;
    if k < n {
      assert ws[..n][k] == ws[k];
      LastWriteWins(dir, ws[..n], k);
    }
  }

  // Writing pages into a directory that already holds files keeps the
  // files that no page replaces: the result is the old directory
  // overlaid with what the pages alone would make.
  lemma {:induction false} WriteAllOverlays(dir: map<string, string>, ws: seq<Written>)
    ensures WriteAll(dir, ws) == dir + WriteAll(map[], ws)
  {
    if ws != [] {
      var n := |ws| - 1;
      WriteAllOverlays(dir, ws[..n]);
    }
  }

  // Running the same pages again over the output leaves it unchanged.
  lemma WriteAllIdempotent(dir: map<string, string>, ws: seq<Written>)
    ensures WriteAll(WriteAll(dir, ws), ws) == WriteAll(dir, ws)
  {
    var pages := WriteAll(map[], ws);
    WriteAllOverlays(dir, ws);
    WriteAllOverlays(WriteAll(dir, ws), ws);
    assert (dir + pages) + pages == dir + pages;
  }

  // Two source files are written to the same path exactly when their
  // output names agree.
  lemma SamePathIffSameName(outputDir: string, p: string, q: string)
    ensures OutputPath(outputDir, p) == OutputPath(outputDir, q) <==> OutputName(p) == OutputName(q)
  {
  }

  // After a four-field run, each selected file that no later selected file
  // shares an output name with has its own page at its output path.
  lemma RunLeavesLastPage(walk: seq<WalkEntry>, filter: Option<string>, matches: (string, string) -> bool,
                          contentOf: string -> string, outputDir: string, dir: map<string, string>, k: nat)
    requires var files := Candidates(walk, filter, matches);
      && k < |files|
      && forall j :: k < j < |files| ==> OutputName(files[j]) != OutputName(files[k])
    ensures var files := Candidates(walk, filter, matches);
      var out := WriteAll(dir, FullRun(walk, filter, matches, contentOf, outputDir));
      var path := OutputPath(outputDir, files[k]);
      && path in out
      && out[path] == FullDocument(outputDir, files[k], contentOf(files[k])).page
  {
    var files := Candidates(walk, filter, matches);
    var ws := FullRun(walk, filter, matches, contentOf, outputDir);
    forall j | k < j < |ws|
      ensures ws[j].path != ws[k].path
    {
      SamePathIffSameName(outputDir, files[j], files[k]);
    }
    LastWriteWins(dir, ws, k);
  }

  // A four-field run adds to the output directory the output path of
  // every selected file, and nothing else.
  lemma RunWritesOutputPaths(walk: seq<WalkEntry>, filter: Option<string>, matches: (string, string) -> bool,
                             contentOf: string -> string, outputDir: string, dir: map<string, string>)
    ensures var files := Candidates(walk, filter, matches);
      var out := WriteAll(dir, FullRun(walk, filter, matches, contentOf, outputDir));
      && (forall k :: 0 <= k < |files| ==> OutputPath(outputDir, files[k]) in out)
      && (forall x :: x in out ==> x in dir || exists k :: 0 <= k < |files| && x == OutputPath(outputDir, files[k]))
  {
    var files := Candidates(walk, filter, matches);
    var ws := FullRun(walk, filter, matches, contentOf, outputDir);
    var out := WriteAll(dir, ws);
    forall k | 0 <= k < |files| ensures OutputPath(outputDir, files[k]) in out {
      WritesPath(dir, ws, k);
    }
    forall x | x in out && x !in dir
      ensures exists k :: 0 <= k < |files| && x == OutputPath(outputDir, files[k])
    {
      var k := WrittenBy(dir, ws, x);
      assert x == OutputPath(outputDir, files[k]);
    }
  }

  // Every page's path is a key of the output directory.
  lemma WritesPath(dir: map<string, string>, ws: seq<Written>, k: nat)
    requires k < |ws|
    ensures ws[k].path in WriteAll(dir, ws)
  {
    assert ws[k].path in (set j | 0 <= j < |ws| :: ws[j].path);
  }

  // A key of the output directory that was not there before is the path of
  // one of the pages.
  lemma WrittenBy(dir: map<string, string>, ws: seq<Written>, x: string) returns (k: nat)
    requires x in WriteAll(dir, ws) && x !in dir
    ensures k < |ws| && ws[k].path == x
  {
    k :| 0 <= k < |ws| && ws[k].path == x;
  }

  // A value `f` takes on no element is not in the image.
  lemma {:induction false} NotInImage(f: string -> string, xs: seq<string>, x: string)
    requires forall j :: 0 <= j < |xs| ==> f(xs[j]) != x
    ensures x !in Image(f, xs)
  {
    if xs != [] {
      var n := |xs| - 1;
      assert forall j :: 0 <= j < n ==> xs[..n][j] == xs[j];
      NotInImage(f, xs[..n], x);
    }
  }

  // The value on each element is in the image.
  lemma {:induction false} InImage(f: string -> string, xs: seq<string>, k: nat)
    requires k < |xs|
    ensures f(xs[k]) in Image(f, xs)
  {
    var n := |xs| - 1;
    if k < n {
      assert xs[..n][k] == xs[k];
      InImage(f, xs[..n], k);
    }
  }

  // Reading each file when its turn comes writes the same pages as reading
  // every file before the run, when no file is the output path of an
  // earlier one: then no file has been replaced by the time it is read.
  lemma {:induction false} ReadsOriginals(out: string -> string, render: (string, string) -> string,
                                          files: seq<string>, contentOf: string -> string, ws: seq<Written>)
    requires |ws| == |files|
    requires forall k :: 0 <= k < |files| ==> ws[k] == Written(out(files[k]), render(files[k], contentOf(files[k])))
    requires forall j, k :: 0 <= j < k < |files| ==> out(files[j]) != files[k]
    ensures RunWrites(out, render, files, contentOf) == WriteAll(map[], ws)
  {
    if files != [] {
      var n := |files| - 1;
      assert forall k :: 0 <= k < n ==> files[..n][k] == files[k] && ws[..n][k] == ws[k];
      ReadsOriginals(out, render, files[..n], contentOf, ws[..n]);
      NotInImage(out, files[..n], files[n]);
    }
  }

  // When no selected file is the output path of an earlier one, as when
  // the output directory lies outside the walked tree, a run of either
  // generator that reads each file in its turn leaves the output directory
  // that the pages of the texts before the run make.
  lemma RunReadsOriginals(walk: seq<WalkEntry>, filter: Option<string>, matches: (string, string) -> bool,
                          contentOf: string -> string, outputDir: string, dir: map<string, string>)
    requires var files := Candidates(walk, filter, matches);
      forall j, k :: 0 <= j < k < |files| ==> OutputPath(outputDir, files[j]) != files[k]
    ensures Run(CommandLine, walk, filter, matches, contentOf, outputDir, dir)
         == WriteAll(dir, FullRun(walk, filter, matches, contentOf, outputDir))
    ensures Run(Graphical, walk, filter, matches, contentOf, outputDir, dir)
         == WriteAll(dir, ShortRun(walk, filter, matches, contentOf, outputDir))
  {
    var files := Candidates(walk, filter, matches);
    var out := OutputPathOf(outputDir);
    forall j, k | 0 <= j < k < |files| ensures out(files[j]) != files[k] {
      assert out(files[j]) == OutputPath(outputDir, files[j]);
    }
    RunPagesRead(CommandLine, walk, filter, matches, contentOf, outputDir, dir);
    RunPagesRead(Graphical, walk, filter, matches, contentOf, outputDir, dir);
  }

  // One generator's half of `RunReadsOriginals`.
  lemma RunPagesRead(g: Flavour, walk: seq<WalkEntry>, filter: Option<string>, matches: (string, string) -> bool,
                     contentOf: string -> string, outputDir: string, dir: map<string, string>)
    requires var files := Candidates(walk, filter, matches);
      forall j, k :: 0 <= j < k < |files| ==> OutputPathOf(outputDir)(files[j]) != files[k]
    ensures var ws := if g == CommandLine then FullRun(walk, filter, matches, contentOf, outputDir)
                      else ShortRun(walk, filter, matches, contentOf, outputDir);
      Run(g, walk, filter, matches, contentOf, outputDir, dir) == WriteAll(dir, ws)
  {
    var files := Candidates(walk, filter, matches);
    var ws := if g == CommandLine then FullRun(walk, filter, matches, contentOf, outputDir)
              else ShortRun(walk, filter, matches, contentOf, outputDir);
    var out := OutputPathOf(outputDir);
    var render := PageOf(g, outputDir);
    forall k | 0 <= k < |files|
      ensures ws[k] == Written(out(files[k]), render(files[k], contentOf(files[k])))
    {
      assert ws[k] == DocumentBy(g, outputDir, files[k], contentOf(files[k]));
    }
    ReadsOriginals(out, render, files, contentOf, ws);
    WriteAllOverlays(dir, ws);
  }
}

=== FILE: options.dfy ===
// The optional values the generator works with: a regular-expression search
// either finds a match or it does not, and an optional setting (the file
// filter) is either given or absent.
module Options {

  datatype Option<+T> = None | Some(value: T)
}

=== FILE: page.dfy ===
// The HTML pages the generator writes.  Fields are inserted verbatim, with
// no HTML escaping.  The four-field page is the one of the command-line
// generator; the two-field page is the one of the variant with a graphical
// front end, which has no references or read-data paragraphs.
//
// Each page is modelled twice: as the concatenation of the chunks the
// generator writes one after another, and as a document of lines, each
// ended by a newline.  The lemmas tie the two views together.
module Page {

  // The four fields shown on a page.
  datatype Fields = Fields(title: string, description: string, references: string, readData: string)

  // The chunks written in order, glued together.
  function Concat(ws: seq<string>): (r: string)
    ensures |ws| > 0 ==> |ws[0]| <= |r| && r[..|ws[0]|] == ws[0]
  {
    if ws == [] then "" else ws[0] + Concat(ws[1..])
  }

  // Lines, each followed by a newline.
  function Unlines(ls: seq<string>): (r: string)
    ensures |r| >= |ls|
  {
    if ls == [] then "" else ls[0] + "\n" + Unlines(ls[1..])
  }

  const Opening := "<!DOCTYPE html>\n<html>\n<head>\n"
  const Closing := "</body>\n</html>\n"

  // The chunks the four-field generator writes, in order.
  function FullWrites(f: Fields, base: string): seq<string>
  {
    [ Opening,
      "<title>" + f.title + "</title>\n</head>\n<body>\n",
      "<h1>" + f.title + "</h1>\n",
      "<p class=\"source_note\">Built from file '" + base + "'</p>\n",
      "<p class=\"file_description\">" + f.description + "</p>\n",
      "<p class=\"references\">References: " + f.references + "</p>\n",
      "<p class=\"read_data\">Read data from: " + f.readData + "</p>\n",
      Closing ]
  }

  // The chunks the two-field generator writes, in order.
  function ShortWrites(title: string, description: string, base: string): seq<string>
  {
    [ Opening,
      "<title>" + title + "</title>\n</head>\n<body>\n",
      "<h1>" + title + "</h1>\n",
      "<p class=\"source_note\">Built from file '" + base + "'</p>\n",
      "<p class=\"file_description\">" + description + "</p>\n",
      Closing ]
  }

  // The four-field page for a source file with base name `base`.
  function FullPage(f: Fields, base: string): (r: string)
    ensures |r| >= |Opening| + |Closing| && r[..|Opening|] == Opening
  {
    Concat(FullWrites(f, base))
  }

  // The two-field page for a source file with base name `base`.
  function ShortPage(title: string, description: string, base: string): (r: string)
    ensures |r| >= |Opening| + |Closing| && r[..|Opening|] == Opening
  {
    Concat(ShortWrites(title, description, base))
  }

  // The four-field page as a document of lines.
  function FullLines(f: Fields, base: string): seq<string>
  {
    [ "<!DOCTYPE html>",
      "<html>",
      "<head>",
      "<title>" + f.title + "</title>",
      "</head>",
      "<body>",
      "<h1>" + f.title + "</h1>",
      "<p class=\"source_note\">Built from file '" + base + "'</p>",
      "<p class=\"file_description\">" + f.description + "</p>",
      "<p class=\"references\">References: " + f.references + "</p>",
      "<p class=\"read_data\">Read data from: " + f.readData + "</p>",
      "</body>",
      "</html>" ]
  }

  // The two-field page as a document of lines.
  function ShortLines(title: string, description: string, base: string): seq<string>
  {
    [ "<!DOCTYPE html>",
      "<html>",
      "<head>",
      "<title>" + title + "</title>",
      "</head>",
      "<body>",
      "<h1>" + title + "</h1>",
      "<p class=\"source_note\">Built from file '" + base + "'</p>",
      "<p class=\"file_description\">" + description + "</p>",
      "</body>",
      "</html>" ]
  }

  // Splitting the lines of a text back apart at its newlines; a final
  // newline does not start another line.
  function SplitLines(s: string): seq<string>
    decreases |s|
  {
    if s == [] then []
    else if exists j :: 0 <= j < |s| && s[j] == '\n' then
      var i := FirstNewline(s, 0);
      [s[..i]] + SplitLines(s[i + 1..])
    else [s]
  }

  // Index of the first newline of `s` at `k` or after.
  function FirstNewline(s: string, k: nat): (r: nat)
    requires k <= |s|
    requires exists j :: k <= j < |s| && s[j] == '\n'
    ensures k <= r < |s| && s[r] == '\n'
    ensures forall j :: k <= j < r ==> s[j] != '\n'
    decreases |s| - k
  {
    if s[k] == '\n' then k else FirstNewline(s, k + 1)
  }
}

// How the chunked pages, the line documents and the two page variants
// relate.
module PageFacts {
  import opened Text
  import opened Page

  // Writing two runs of lines one after the other writes their union.
  lemma {:induction false} UnlinesAppend(a: seq<string>, b: seq<string>)
    ensures Unlines(a + b) == Unlines(a) + Unlines(b)
  {
    if a == [] {
      assert a + b == b;
    } else {
      assert (a + b)[1..] == a[1..] + b;
      UnlinesAppend(a[1..], b);
      calc {
        Unlines(a + b);
        a[0] + "\n" + Unlines(a[1..] + b);
        a[0] + "\n" + (Unlines(a[1..]) + Unlines(b));
        (a[0] + "\n" + Unlines(a[1..])) + Unlines(b);
      }
    }
  }

  // Concatenation splits at any point of the chunk sequence.
  lemma {:induction false} ConcatAppend(a: seq<string>, b: seq<string>)
    ensures Concat(a + b) == Concat(a) + Concat(b)
  {
    if a == [] {
      assert a + b == b;
    } else {
      assert (a + b)[1..] == a[1..] + b;
      ConcatAppend(a[1..], b);
      calc {
        Concat(a + b);
        a[0] + Concat(a[1..] + b);
        a[0] + (Concat(a[1..]) + Concat(b));
        (a[0] + Concat(a[1..])) + Concat(b);
      }
    }
  }

  // `cut` splits the lines `ls` into one run per chunk of `ws`, and each
  // chunk is its run of lines written out.
  predicate ChunksWriteRuns(ws: seq<string>, ls: seq<string>, cut: seq<nat>)
  {
    && |cut| == |ws| + 1
    && cut[0] == 0
    && cut[|ws|] == |ls|
    && (forall k :: 0 <= k < |cut| ==> cut[k] <= |ls|)
    && (forall k :: 0 <= k < |ws| ==> cut[k] <= cut[k + 1])
    && (forall k :: 0 <= k < |ws| ==> ws[k] == Unlines(ls[cut[k]..cut[k + 1]]))
  }

  // The chunks from the `k`-th on write the lines from that chunk's first.
  lemma {:induction false} ChunksFrom(ws: seq<string>, ls: seq<string>, cut: seq<nat>, k: nat)
    requires ChunksWriteRuns(ws, ls, cut)
    requires k <= |ws|
    ensures Concat(ws[k..]) == Unlines(ls[cut[k]..])
    decreases |ws| - k
  {
    if k == |ws| {
      assert ws[k..] == [];
      assert ls[cut[k]..] == [];
    } else {
      ChunksFrom(ws, ls, cut, k + 1);
      assert ws[k..][1..] == ws[k + 1..];
      assert ls[cut[k]..] == ls[cut[k]..cut[k + 1]] + ls[cut[k + 1]..];
      UnlinesAppend(ls[cut[k]..cut[k + 1]], ls[cut[k + 1]..]);
    }
  }

  // Chunks that each write one run of lines, the runs in order and
  // together covering the lines, write the whole document.
  lemma ChunksWriteDocument(ws: seq<string>, ls: seq<string>, cut: seq<nat>)
    requires ChunksWriteRuns(ws, ls, cut)
    ensures Concat(ws) == Unlines(ls)
  {
    ChunksFrom(ws, ls, cut, 0);
    assert ws[0..] == ws;
    assert ls[0..] == ls;
  }

  // One, two and three lines written out.
  lemma UnlinesSmall(x: string, y: string, z: string)
    ensures Unlines([x]) == x + "\n"
    ensures Unlines([x, y]) == x + "\n" + (y + "\n")
    ensures Unlines([x, y, z]) == x + "\n" + (y + "\n" + (z + "\n"))
  {
    assert [x, y][1..] == [y];
    assert [x, y, z][1..] == [y, z];
    assert Unlines([z]) == z + "\n";
  }

  // The opening and closing chunks hold three and two lines.
  lemma OpeningAndClosingLines()
    ensures Opening == Unlines(["<!DOCTYPE html>", "<html>", "<head>"])
    ensures Closing == Unlines(["</body>", "</html>"])
  {
    UnlinesSmall("<!DOCTYPE html>", "<html>", "<head>");
    UnlinesSmall("</body>", "</html>", "");
  }

  // The title chunk holds three lines.
  lemma TitleChunkLines(title: string)
    ensures "<title>" + title + "</title>\n</head>\n<body>\n"
         == Unlines(["<title>" + title + "</title>", "</head>", "<body>"])
  {
    UnlinesSmall("<title>" + title + "</title>", "</head>", "<body>");
    assert "</title>\n</head>\n<body>\n" == "</title>" + "\n" + ("</head>" + "\n" + ("<body>" + "\n"));
  }

  // A chunk holding one element is one line.
  lemma ElementChunkLine(open: string, x: string, close: string)
    ensures open + x + (close + "\n") == Unlines([open + x + close])
  {
    UnlinesSmall(open + x + close, "", "");
  }

  // Where the chunks of the four-field page cut its lines.
  const FullCut: seq<nat> := [0, 3, 6, 7, 8, 9, 10, 11, 13]

  // Where the chunks of the two-field page cut its lines.
  const ShortCut: seq<nat> := [0, 3, 6, 7, 8, 9, 11]

  lemma FullHeadChunks(f: Fields, base: string)
    ensures FullWrites(f, base)[0] == Unlines(FullLines(f, base)[0..3])
    ensures FullWrites(f, base)[1] == Unlines(FullLines(f, base)[3..6])
  {
    var ls := FullLines(f, base);
    OpeningAndClosingLines();
    TitleChunkLines(f.title);
    assert ls[0..3] == ["<!DOCTYPE html>", "<html>", "<head>"];
    assert ls[3..6] == ["<title>" + f.title + "</title>", "</head>", "<body>"];
  }

  lemma FullHeadingChunks(f: Fields, base: string)
    ensures FullWrites(f, base)[2] == Unlines(FullLines(f, base)[6..7])
    ensures FullWrites(f, base)[3] == Unlines(FullLines(f, base)[7..8])
    ensures FullWrites(f, base)[4] == Unlines(FullLines(f, base)[8..9])
  {
    var ls := FullLines(f, base);
    ElementChunkLine("<h1>", f.title, "</h1>");
    ElementChunkLine("<p class=\"source_note\">Built from file '", base, "'</p>");
    ElementChunkLine("<p class=\"file_description\">", f.description, "</p>");
    assert "</h1>\n" == "</h1>" + "\n";
    assert "'</p>\n" == "'</p>" + "\n";
    assert "</p>\n" == "</p>" + "\n";
    assert ls[6..7] == [ls[6]];
    assert ls[7..8] == [ls[7]];
    assert ls[8..9] == [ls[8]];
  }

  lemma FullTailChunks(f: Fields, base: string)
    ensures FullWrites(f, base)[5] == Unlines(FullLines(f, base)[9..10])
    ensures FullWrites(f, base)[6] == Unlines(FullLines(f, base)[10..11])
    ensures FullWrites(f, base)[7] == Unlines(FullLines(f, base)[11..13])
  {
    var ls := FullLines(f, base);
    ElementChunkLine("<p class=\"references\">References: ", f.references, "</p>");
    ElementChunkLine("<p class=\"read_data\">Read data from: ", f.readData, "</p>");
    OpeningAndClosingLines();
    assert "</p>\n" == "</p>" + "\n";
    assert ls[9..10] == [ls[9]];
    assert ls[10..11] == [ls[10]];
    assert ls[11..13] == ["</body>", "</html>"];
  }

  // The four-field page is its document of thirteen lines, each ended by a
  // newline: every chunk the generator writes is a run of whole lines.
  lemma FullPageIsDocument(f: Fields, base: string)
    ensures FullPage(f, base) == Unlines(FullLines(f, base))
  {
    var ws := FullWrites(f, base);
    var ls := FullLines(f, base);
    FullHeadChunks(f, base);
    FullHeadingChunks(f, base);
    FullTailChunks(f, base);
    assert ChunksWriteRuns(ws, ls, FullCut);
    ChunksWriteDocument(ws, ls, FullCut);
  }

  lemma ShortHeadChunks(title: string, description: string, base: string)
    ensures ShortWrites(title, description, base)[0] == Unlines(ShortLines(title, description, base)[0..3])
    ensures ShortWrites(title, description, base)[1] == Unlines(ShortLines(title, description, base)[3..6])
  {
    var ls := ShortLines(title, description, base);
    OpeningAndClosingLines();
    TitleChunkLines(title);
    assert ls[0..3] == ["<!DOCTYPE html>", "<html>", "<head>"];
    assert ls[3..6] == ["<title>" + title + "</title>", "</head>", "<body>"];
  }

  lemma ShortTailChunks(title: string, description: string, base: string)
    ensures ShortWrites(title, description, base)[2] == Unlines(ShortLines(title, description, base)[6..7])
    ensures ShortWrites(title, description, base)[3] == Unlines(ShortLines(title, description, base)[7..8])
    ensures ShortWrites(title, description, base)[4] == Unlines(ShortLines(title, description, base)[8..9])
    ensures ShortWrites(title, description, base)[5] == Unlines(ShortLines(title, description, base)[9..11])
  {
    var ls := ShortLines(title, description, base);
    ElementChunkLine("<h1>", title, "</h1>");
    ElementChunkLine("<p class=\"source_note\">Built from file '", base, "'</p>");
    ElementChunkLine("<p class=\"file_description\">", description, "</p>");
    OpeningAndClosingLines();
    assert "</h1>\n" == "</h1>" + "\n";
    assert "'</p>\n" == "'</p>" + "\n";
    assert "</p>\n" == "</p>" + "\n";
    assert ls[6..7] == [ls[6]];
    assert ls[7..8] == [ls[7]];
    assert ls[8..9] == [ls[8]];
    assert ls[9..11] == ["</body>", "</html>"];
  }

  // The two-field page is its document of eleven lines, each ended by a
  // newline.
  lemma ShortPageIsDocument(title: string, description: string, base: string)
    ensures ShortPage(title, description, base) == Unlines(ShortLines(title, description, base))
  {
    var ws := ShortWrites(title, description, base);
    var ls := ShortLines(title, description, base);
    ShortHeadChunks(title, description, base);
    ShortTailChunks(title, description, base);
    assert ChunksWriteRuns(ws, ls, ShortCut);
    ChunksWriteDocument(ws, ls, ShortCut);
  }

  // The two paragraphs only the four-field page has.
  function ReferencesParagraph(references: string): string
  {
    "<p class=\"references\">References: " + references + "</p>\n"
  }

  function ReadDataParagraph(readData: string): string
  {
    "<p class=\"read_data\">Read data from: " + readData + "</p>\n"
  }

  // For the same title, description and base name, the four-field page is
  // the two-field page with the references and read-data paragraphs
  // inserted before the closing tags, and nothing else changed.
  lemma {:induction false} FullPageExtendsShortPage(title: string, description: string, references: string, readData: string, base: string)
    ensures var short := ShortPage(title, description, base);
      var head := short[..|short| - |Closing|];
      && short == head + Closing
      && FullPage(Fields(title, description, references, readData), base)
         == head + ReferencesParagraph(references) + ReadDataParagraph(readData) + Closing
  {
    var f := Fields(title, description, references, readData);
    var sw := ShortWrites(title, description, base);
    var fw := FullWrites(f, base);
    var tail := [ReferencesParagraph(references), ReadDataParagraph(readData), Closing];
    assert sw == sw[..5] + [Closing];
    assert fw == sw[..5] + tail;
    ConcatAppend(sw[..5], [Closing]);
    ConcatAppend(sw[..5], tail);
    assert Concat([Closing]) == Closing;
    assert tail[1..][1..] == [Closing];
    assert Concat(tail) == ReferencesParagraph(references) + (ReadDataParagraph(readData) + Closing);
    var head := Concat(sw[..5]);
    assert ShortPage(title, description, base)[..|ShortPage(title, description, base)| - |Closing|] == head;
  }

  // Both pages open with the document type and the head, and close with
  // the body and html end tags.
  lemma PagesFramed(f: Fields, base: string)
    ensures var full := FullPage(f, base);
      var short := ShortPage(f.title, f.description, base);
      && full[..|Opening|] == Opening && full[|full| - |Closing|..] == Closing
      && short[..|Opening|] == Opening && short[|short| - |Closing|..] == Closing
  {
    FullPageExtendsShortPage(f.title, f.description, f.references, f.readData, base);
    assert f == Fields(f.title, f.description, f.references, f.readData);
  }

  // Splitting a text written as newline-free lines gives back the lines.
  lemma {:induction false} LinesRoundTrip(ls: seq<string>)
    requires forall k :: 0 <= k < |ls| ==> Free(ls[k], '\n')
    ensures SplitLines(Unlines(ls)) == ls
  {
    if ls != [] {
      var s := Unlines(ls);
      var n := |ls[0]|;
      assert s == ls[0] + "\n" + Unlines(ls[1..]);
      assert s[n] == '\n';
      var i := FirstNewline(s, 0);
      assert forall j :: 0 <= j < n ==> s[j] == ls[0][j];
      assert i == n;
      assert s[..i] == ls[0];
      assert s[i + 1..] == Unlines(ls[1..]);
      LinesRoundTrip(ls[1..]);
    }
  }

  // A field framed by two newline-free pieces of markup is newline-free.
  lemma FramedFree(a: string, x: string, b: string)
    requires Free(a, '\n') && Free(x, '\n') && Free(b, '\n')
    ensures Free(a + x + b, '\n')
  {
    FreeConcat(a, x, '\n');
    FreeConcat(a + x, b, '\n');
  }

  // The lines of the four-field page are newline-free when its fields and
  // base name are.
  lemma FullLinesFree(f: Fields, base: string)
    requires Free(f.title, '\n') && Free(f.description, '\n')
    requires Free(f.references, '\n') && Free(f.readData, '\n') && Free(base, '\n')
    ensures forall k :: 0 <= k < |FullLines(f, base)| ==> Free(FullLines(f, base)[k], '\n')
  {
    OuterMarkupFree();
    InnerMarkupFree();
    FramedFree("<title>", f.title, "</title>");
    FramedFree("<h1>", f.title, "</h1>");
    FramedFree("<p class=\"source_note\">Built from file '", base, "'</p>");
    FramedFree("<p class=\"file_description\">", f.description, "</p>");
    FramedFree("<p class=\"references\">References: ", f.references, "</p>");
    FramedFree("<p class=\"read_data\">Read data from: ", f.readData, "</p>");
  }

  // The fixed lines of the pages hold no newline.
  lemma OuterMarkupFree()
    ensures Free("<!DOCTYPE html>", '\n') && Free("<html>", '\n') && Free("<head>", '\n')
    ensures Free("</head>", '\n') && Free("<body>", '\n') && Free("</body>", '\n') && Free("</html>", '\n')
  {
  }

  // Nor do the pieces of markup around the fields.
  lemma InnerMarkupFree()
    ensures Free("<title>", '\n') && Free("</title>", '\n') && Free("<h1>", '\n') && Free("</h1>", '\n')
    ensures Free("<p class=\"source_note\">Built from file '", '\n') && Free("'</p>", '\n')
    ensures Free("<p class=\"file_description\">", '\n') && Free("</p>", '\n')
    ensures Free("<p class=\"references\">References: ", '\n')
    ensures Free("<p class=\"read_data\">Read data from: ", '\n')
  {
  }

  // When no field and not the base name holds a newline, the four-field
  // page splits into exactly its thirteen lines: each field stays on the
  // line of its own element.
  lemma FullPageLines(f: Fields, base: string)
    requires Free(f.title, '\n') && Free(f.description, '\n')
    requires Free(f.references, '\n') && Free(f.readData, '\n') && Free(base, '\n')
    ensures SplitLines(FullPage(f, base)) == FullLines(f, base)
  {
    FullLinesFree(f, base);
    FullPageIsDocument(f, base);
    LinesRoundTrip(FullLines(f, base));
  }

  // The lines of the two-field page are those of the four-field page
  // without the references and read-data lines.
  lemma ShortLinesAreFullLinesCut(title: string, description: string, references: string, readData: string, base: string)
    ensures var ls := FullLines(Fields(title, description, references, readData), base);
      ShortLines(title, description, base) == ls[..9] + ls[11..]
  {
  }

  // The two-field page is the four-field document with its references and
  // read-data lines (the tenth and eleventh) removed.
  lemma ShortPageDropsTwoLines(title: string, description: string, references: string, readData: string, base: string)
    ensures var ls := FullLines(Fields(title, description, references, readData), base);
      && ShortLines(title, description, base) == ls[..9] + ls[11..]
      && ShortPage(title, description, base) == Unlines(ls[..9] + ls[11..])
  {
    ShortPageIsDocument(title, description, base);
    ShortLinesAreFullLinesCut(title, description, references, readData, base);
  }
}

=== FILE: paths.dfy ===
// The path arithmetic of the generator, following POSIX `os.path`:
// `basename` (the text after the last `/`), two-argument `join`, and
// `splitext` (cut at the last `.` of the last component, unless only dots
// precede it there).  The output page of a source file is named after the
// stem of its base name, with `.html` appended.
module Paths {
  import opened Text

  // Index of the last `ch` in `s`, or -1 (Python's `str.rfind`).
  function LastIndex(s: string, ch: char): (r: int)
    ensures -1 <= r < |s|
    ensures r >= 0 ==> s[r] == ch
    ensures forall j :: r < j < |s| ==> s[j] != ch
  {
    if |s| == 0 then -1
    else if s[|s| - 1] == ch then |s| - 1
    else LastIndex(s[..|s| - 1], ch)
  }

  // `os.path.basename`: everything after the last `/`.
  function Basename(p: string): (r: string)
    ensures |r| <= |p| && r == p[|p| - |r|..]
    ensures Free(r, '/')
    ensures |r| == |p| || p[|p| - |r| - 1] == '/'
  {
    p[LastIndex(p, '/') + 1..]
  }

  // The base name is the one slash-free suffix that is the whole path or
  // follows a `/`.
  lemma {:induction false} BasenameUnique(p: string, x: string)
    requires |x| <= |p| && x == p[|p| - |x|..]
    requires Free(x, '/')
    requires |x| == |p| || p[|p| - |x| - 1] == '/'
    ensures Basename(p) == x
  {
  }

  // `os.path.join(a, b)`: an absolute `b` replaces `a`; otherwise one `/`
  // separates them unless `a` is empty or already ends in `/`.
  function Join(a: string, b: string): (r: string)
    ensures |b| > 0 && b[0] == '/' ==> r == b
    ensures !(|b| > 0 && b[0] == '/') ==> |r| >= |a| + |b| && r[..|a|] == a && r[|r| - |b|..] == b
    ensures !(|b| > 0 && b[0] == '/') && |a| > 0 ==> r[|r| - |b| - 1] == '/'
  {
    if |b| > 0 && b[0] == '/' then b
    else if a == [] || a[|a| - 1] == '/' then a + b
    else a + "/" + b
  }

  // The directory as `join` puts it before a relative name: followed by a
  // `/` unless it is empty or already ends in one.
  function DirPrefix(dir: string): string
  {
    if dir == [] || dir[|dir| - 1] == '/' then dir else dir + "/"
  }

  // A relative name is joined to the directory by exactly one separator,
  // with no other change to either.
  lemma JoinRelative(dir: string, name: string)
    requires !(|name| > 0 && name[0] == '/')
    ensures Join(dir, name) == DirPrefix(dir) + name
    ensures |Join(dir, name)| <= |dir| + 1 + |name|
  {
  }

  // A path that starts with `dir`, has `name` as its base name and is as
  // long as `DirPrefix(dir) + name` is exactly that: `name` directly inside
  // `dir`.
  lemma {:induction false} DirectlyIn(p: string, dir: string, name: string)
    requires |p| == |DirPrefix(dir)| + |name|
    requires |p| >= |dir| && p[..|dir|] == dir
    requires Basename(p) == name
    ensures p == DirPrefix(dir) + name
  {
    var d := DirPrefix(dir);
    assert p[|d|..] == name;
    if dir == [] || dir[|dir| - 1] == '/' {
      assert p[..|d|] == d;
    } else {
      assert p[|dir|] == '/';
      assert p[..|d|] == p[..|dir|] + [p[|dir|]];
    }
    assert p == p[..|d|] + p[|d|..];
  }

  // Joining a directory with a name that holds no `/` and taking the base
  // name gives back the name.
  lemma {:induction false} BasenameOfJoin(dir: string, name: string)
    requires Free(name, '/')
    ensures Basename(Join(dir, name)) == name
  {
    var p := Join(dir, name);
    if |name| > 0 {
      assert name[0] != '/';
    }
    BasenameUnique(p, name);
  }

  // The two parts `os.path.splitext` returns: `root + ext` is the path.
  datatype SplitPath = SplitPath(root: string, ext: string)

  // The loop of `splitext` that skips leading dots: some character of
  // `p[i..d]` is not a dot.
  function HasNonDot(p: string, i: nat, d: nat): (r: bool)
    requires d <= |p|
    ensures r <==> exists j :: i <= j < d && p[j] != '.'
    decreases d - i
  {
    if i >= d then false
    else if p[i] != '.' then true
    else HasNonDot(p, i + 1, d)
  }

  // The last component of `p` (after its last `/`) has a dot that follows
  // some character other than a dot.
  ghost predicate HasExtension(p: string)
  {
    exists a, b :: LastIndex(p, '/') < a < b < |p| && p[a] != '.' && p[b] == '.'
  }

  // `os.path.splitext`.
  function Splitext(p: string): (r: SplitPath)
    ensures r.root + r.ext == p
    ensures r.ext != [] <==> HasExtension(p)
    ensures r.ext != [] ==> r.ext[0] == '.'
    ensures forall j :: 0 < j < |r.ext| ==> r.ext[j] != '.' && r.ext[j] != '/'
  {
    var sep := LastIndex(p, '/');
    var dot := LastIndex(p, '.');
    if dot > sep && HasNonDot(p, sep + 1, dot) then
      assert p[..dot] + p[dot..] == p;
      SplitPath(p[..dot], p[dot..])
    else
      SplitPath(p, [])
  }

  // The stem of a file name: the name without its final extension.  With
  // an extension the cut is at the name's last dot; without one the name
  // stays whole.
  function Stem(name: string): (r: string)
    ensures |r| <= |name| && r == name[..|r|]
    ensures HasExtension(name) ==> |r| < |name| && name[|r|] == '.' && Free(name[|r| + 1..], '.')
    ensures !HasExtension(name) ==> r == name
  {
    var sp := Splitext(name);
    assert sp.root == (sp.root + sp.ext)[..|sp.root|];
    assert sp.ext != [] ==> name[|sp.root|] == sp.ext[0] && name[|sp.root| + 1..] == sp.ext[1..];
    sp.root
  }

  // A stem holds no character its name does not hold.
  lemma StemKeepsOut(name: string, ch: char)
    requires Free(name, ch)
    ensures Free(Stem(name), ch)
  {
  }

  // `x` with `.html` appended.
  function HtmlSuffix(x: string): (r: string)
    requires Free(x, '/')
    ensures |r| == |x| + 5 && r[..|x|] == x && r[|x|..] == ".html"
    ensures Free(r, '/')
  {
    assert Free(".html", '/');
    FreeConcat(x, ".html", '/');
    x + ".html"
  }

  // The name of the page generated for the source file at `path`.
  function OutputName(path: string): (r: string)
    ensures |r| >= 5 && r[|r| - 5..] == ".html"
    ensures Free(r, '/')
    ensures r == Stem(Basename(path)) + ".html"
  {
    var base := Basename(path);
    var stem := Stem(base);
    StemKeepsOut(base, '/');
    HtmlSuffix(stem)
  }

  // Where the page for `path` is written: inside `outputDir`, under its
  // output name.
  function OutputPath(outputDir: string, path: string): (r: string)
    ensures |r| >= |outputDir| && r[..|outputDir|] == outputDir
    ensures Basename(r) == OutputName(path)
    ensures r == DirPrefix(outputDir) + OutputName(path)
  {
    var name := OutputName(path);
    BasenameOfJoin(outputDir, name);
    assert name[0] != '/';
    JoinRelative(outputDir, name);
    Join(outputDir, name)
  }
}

// Worked cases of the output-name rule.
module PathsFacts {
  import opened Text
  import opened Paths

  // A slash-free name has no `/` for `LastIndex` to find.
  lemma NoSlashIndex(name: string)
    requires Free(name, '/')
    ensures LastIndex(name, '/') == -1
  {
  }

  // When a name has an extension, `splitext` cuts at its last dot.
  lemma {:induction false} SplitextCutsAtLastDot(name: string, d: nat)
    requires HasExtension(name)
    requires d < |name| && name[d] == '.'
    requires forall k :: d < k < |name| ==> name[k] != '.'
    ensures Stem(name) == name[..d]
  {
    var sp := Splitext(name);
    assert sp.root + sp.ext == name;
    assert forall k :: 0 <= k < |sp.ext| ==> sp.ext[k] == name[|sp.root| + k];
  }

  // The stem of `n.x`, where `n` is not all dots and `x` holds no dot, is `n`.
  lemma {:induction false} StemOfDottedName(n: string, x: string)
    requires Free(n, '/') && Free(x, '/') && Free(x, '.')
    requires exists j :: 0 <= j < |n| && n[j] != '.'
    ensures Stem(n + "." + x) == n
  {
    var name := n + "." + x;
    assert Free(name, '/') by {
      FreeConcat(n, ".", '/');
      FreeConcat(n + ".", x, '/');
    }
    NoSlashIndex(name);
    var j :| 0 <= j < |n| && n[j] != '.';
    assert forall k :: 0 <= k < |n| ==> name[k] == n[k];
    assert name[j] != '.' && name[|n|] == '.';
    assert HasExtension(name);
    assert forall k :: |n| < k < |name| ==> name[k] == x[k - |n| - 1];
    SplitextCutsAtLastDot(name, |n|);
    assert name[..|n|] == n;
  }

  // A source file `n.x` in any directory, where `n` is not all dots and `x`
  // holds no dot, gets the page `n.html`: only the final extension goes.
  lemma {:induction false} OutputNameDropsLastExtension(dir: string, n: string, x: string)
    requires Free(n, '/') && Free(x, '/') && Free(x, '.')
    requires exists j :: 0 <= j < |n| && n[j] != '.'
    ensures OutputName(dir + "/" + n + "." + x) == n + ".html"
  {
    var name := n + "." + x;
    assert Free(name, '/') by {
      FreeConcat(n, ".", '/');
      FreeConcat(n + ".", x, '/');
    }
    var path := dir + "/" + n + "." + x;
    assert path == (dir + "/") + name;
    BasenameUnique(path, name);
    StemOfDottedName(n, x);
  }

  // A source file whose name is a dot followed by a dot-free name, such as
  // `.bashrc`, keeps its whole name: the page is `.bashrc.html`.
  lemma {:induction false} OutputNameKeepsLeadingDotName(dir: string, n: string)
    requires Free(n, '/') && Free(n, '.')
    ensures OutputName(dir + "/." + n) == "." + n + ".html"
  {
    var name := "." + n;
    assert Free(name, '/') by {
      FreeConcat(".", n, '/');
    }
    var path := dir + "/." + n;
    assert path == (dir + "/") + name;
    BasenameUnique(path, name);
    NoSlashIndex(name);
    assert !HasExtension(name);
  }
}

=== FILE: pattern.dfy ===
// The tag searches of the documentation generator.
//
// Every field of a page is taken from one `re.search` with a pattern of the
// shape `/\*[\s\*]*TAG(.+?)\*/`: an opening `/*`, a greedy run of
// whitespace or `*` characters, the literal tag, then a lazy, non-empty
// capture of characters other than a newline (no DOTALL flag) that ends at
// the first `*/` reachable without crossing a newline.  The search is
// leftmost: the first position at which the whole pattern can match wins.
//
// `Fits` and `Matches` below state what the regular expression accepts;
// `MatchAt`, `Find` and `Extract` compute it by hand, and their contracts
// tie the two together.
module TagPattern {
  import opened Options

  // The four tags searched for.
  datatype Tag = File | Description | Include | Param

  // The literal text that follows the run of decoration in each pattern.
  function TagText(t: Tag): (r: string)
    ensures |r| > 0 && !IsRunChar(r[0])
  {
    match t
    case File => "File: "
    case Description => "Description: "
    case Include => "#include"
    case Param => "@Param"
  }

  // Python's `\s` on text patterns: the characters `str.isspace` accepts.
  predicate IsSpace(ch: char)
  {
    || '\t' <= ch <= '\r'
    || '\U{1C}' <= ch <= '\U{1F}'
    || ch == ' '
    || ch == '\U{85}'
    || ch == '\U{A0}'
    || ch == '\U{1680}'
    || '\U{2000}' <= ch <= '\U{200A}'
    || ch == '\U{2028}'
    || ch == '\U{2029}'
    || ch == '\U{202F}'
    || ch == '\U{205F}'
    || ch == '\U{3000}'
  }

  // The character class `[\s\*]`.
  predicate IsRunChar(ch: char)
  {
    IsSpace(ch) || ch == '*'
  }

  // `lit` occurs in `s` starting at index `i`.
  predicate At(s: string, i: nat, lit: string)
  {
    i + |lit| <= |s| && s[i..i + |lit|] == lit
  }

  // No newline occurs in `s[lo..hi]`.
  predicate NoNewline(s: string, lo: nat, hi: nat)
    requires lo <= hi <= |s|
  {
    forall j :: lo <= j < hi ==> s[j] != '\n'
  }

  // Every character of `s[lo..hi]` belongs to `[\s\*]`.
  predicate AllRun(s: string, lo: nat, hi: nat)
    requires lo <= hi <= |s|
  {
    forall j :: lo <= j < hi ==> IsRunChar(s[j])
  }

  // The pattern for `t` can match with its `/*` at `i` and its group
  // spanning `s[c..e]`: some run of `[\s\*]` follows the `/*`, the tag
  // follows the run, the group is non-empty and newline-free, and a `*/`
  // follows it.  This admits every end `e` the lazy group could reach by
  // backtracking.
  ghost predicate Fits(s: string, i: nat, t: Tag, c: nat, e: nat)
  {
    var tag := TagText(t);
    && At(s, i, "/*")
    && i + 2 + |tag| <= c
    && At(s, c - |tag|, tag)
    && AllRun(s, i + 2, c - |tag|)
    && c < e
    && At(s, e, "*/")
    && NoNewline(s, c, e)
  }

  // The match the regular expression reports at `i`: a fitting span whose
  // `*/` is the first one after the group's first character (the lazy
  // `+?` stops as soon as `*/` can follow).
  ghost predicate Matches(s: string, i: nat, t: Tag, c: nat, e: nat)
  {
    && Fits(s, i, t, c, e)
    && forall j :: c < j < e ==> !At(s, j, "*/")
  }

  // The pattern for `t` matches nowhere in `s`.
  ghost predicate NoMatch(s: string, t: Tag)
  {
    forall i: nat, c: nat, e: nat :: !Fits(s, i, t, c, e)
  }

  // Where a match lies: the `/*` at `open`, the group at `s[start..end]`.
  datatype Span = Span(open: nat, start: nat, end: nat)

  // The end of the greedy run `[\s\*]*` that starts at `j`.
  function RunEnd(s: string, j: nat): (r: nat)
    requires j <= |s|
    ensures j <= r <= |s|
    ensures AllRun(s, j, r)
    ensures r == |s| || !IsRunChar(s[r])
    decreases |s| - j
  {
    if j < |s| && IsRunChar(s[j]) then RunEnd(s, j + 1) else j
  }

  // The lazy group's search for its closing `*/`, at index `e` and beyond:
  // stop at the first `*/`, give up at a newline or at the end of `s`.
  function CloseFrom(s: string, e: nat): (r: Option<nat>)
    requires e <= |s|
    ensures r.Some? ==> e <= r.value && At(s, r.value, "*/") && NoNewline(s, e, r.value)
    ensures r.Some? ==> forall j :: e <= j < r.value ==> !At(s, j, "*/")
    ensures r.None? ==> forall x :: e <= x <= |s| && At(s, x, "*/") ==> !NoNewline(s, e, x)
    decreases |s| - e
  {
    if At(s, e, "*/") then Some(e)
    else if e < |s| && s[e] != '\n' then CloseFrom(s, e + 1)
    else None
  }

  // The one place the tag can start in a fitting span at `i`: right after
  // the maximal run, since no tag begins with a `[\s\*]` character.
  lemma FitsTagAfterMaximalRun(s: string, i: nat, t: Tag, c: nat, e: nat)
    requires Fits(s, i, t, c, e)
    ensures c - |TagText(t)| == RunEnd(s, i + 2)
  {
    var k := c - |TagText(t)|;
    assert s[k] == TagText(t)[0];
  }

  // At `i`, the pattern has no way to match when the tag does not follow
  // the maximal run.
  lemma NoFitWithoutTag(s: string, i: nat, t: Tag)
    requires At(s, i, "/*")
    requires !At(s, RunEnd(s, i + 2), TagText(t))
    ensures forall c: nat, e: nat :: !Fits(s, i, t, c, e)
  {
    forall c, e | Fits(s, i, t, c, e) ensures false {
      FitsTagAfterMaximalRun(s, i, t, c, e);
    }
  }

  // At `i`, with the tag in place and the group to start at `c`, the pattern
  // has no way to match when the lazy group cannot take its first
  // character or cannot reach a `*/` from there.
  lemma NoFitWithoutClose(s: string, i: nat, t: Tag, c: nat)
    requires At(s, i, "/*")
    requires c == RunEnd(s, i + 2) + |TagText(t)|
    requires c <= |s|
    requires c == |s| || s[c] == '\n' || CloseFrom(s, c + 1).None?
    ensures forall c': nat, e: nat :: !Fits(s, i, t, c', e)
  {
    forall c', e | Fits(s, i, t, c', e) ensures false {
      FitsTagAfterMaximalRun(s, i, t, c', e);
    }
  }

  // With the tag in place and the lazy group closing at `e`, the span is
  // the match the regular expression reports at `i`.
  lemma MatchFromClose(s: string, i: nat, t: Tag, c: nat, e: nat)
    requires At(s, i, "/*")
    requires c == RunEnd(s, i + 2) + |TagText(t)|
    requires At(s, c - |TagText(t)|, TagText(t))
    requires c < |s| && s[c] != '\n'
    requires CloseFrom(s, c + 1) == Some(e)
    ensures Matches(s, i, t, c, e)
  {
  }

  // The regular expression tried at one position `i`.
  function MatchAt(s: string, i: nat, t: Tag): (r: Option<Span>)
    ensures r.Some? ==> r.value.open == i && Matches(s, i, t, r.value.start, r.value.end)
    ensures r.None? ==> forall c: nat, e: nat :: !Fits(s, i, t, c, e)
  {
    var tag := TagText(t);
    if !At(s, i, "/*") then None
    else
      var k := RunEnd(s, i + 2);
      if !At(s, k, tag) then
        NoFitWithoutTag(s, i, t);
        None
      else
        var c := k + |tag|;
        if c < |s| && s[c] != '\n' && CloseFrom(s, c + 1).Some? then
          var e := CloseFrom(s, c + 1).value;
          MatchFromClose(s, i, t, c, e);
          Some(Span(i, c, e))
        else
          NoFitWithoutClose(s, i, t, c);
          None
  }

  // The leftmost match whose `/*` is at `i` or later.
  function FindFrom(s: string, t: Tag, i: nat): (r: Option<Span>)
    requires i <= |s|
    ensures r.Some? ==> i <= r.value.open && Matches(s, r.value.open, t, r.value.start, r.value.end)
    ensures r.Some? ==> forall j: nat, c: nat, e: nat :: i <= j < r.value.open ==> !Fits(s, j, t, c, e)
    ensures r.None? ==> forall j: nat, c: nat, e: nat :: i <= j ==> !Fits(s, j, t, c, e)
    decreases |s| - i
  {
    if |s| < i + 2 then None
    else
      match MatchAt(s, i, t)
      case Some(sp) => Some(sp)
      case None => FindFrom(s, t, i + 1)
  }

  // `re.search` of the pattern for `t` over the whole of `s`.
  function Find(s: string, t: Tag): (r: Option<Span>)
    ensures r.None? <==> NoMatch(s, t)
    ensures r.Some? ==> Matches(s, r.value.open, t, r.value.start, r.value.end)
    ensures r.Some? ==> forall j: nat, c: nat, e: nat :: j < r.value.open ==> !Fits(s, j, t, c, e)
  {
    var r := FindFrom(s, t, 0);
    if r.Some? then
      assert Fits(s, r.value.open, t, r.value.start, r.value.end);
      r
    else
      assert NoMatch(s, t);
      r
  }

  // `group(1)` of the search, or None when the pattern matches nowhere.
  function Extract(s: string, t: Tag): (r: Option<string>)
    ensures r.None? <==> NoMatch(s, t)
    ensures r.Some? ==> Find(s, t).Some? && r.value == s[Find(s, t).value.start..Find(s, t).value.end]
  {
    match Find(s, t)
    case None => None
    case Some(sp) => Some(s[sp.start..sp.end])
  }
}


// Properties of the tag searches, and worked examples.
module TagPatternFacts {
  import opened Options
  import opened Text
  import opened TagPattern

  // At one opening `/*` the pattern reports at most one group: greedy
  // decoration and a lazy group leave no choice.
  lemma {:induction false} MatchIsUnique(s: string, i: nat, t: Tag, c: nat, e: nat, c': nat, e': nat)
    requires Matches(s, i, t, c, e) && Matches(s, i, t, c', e')
    ensures c == c' && e == e'
  {
    FitsTagAfterMaximalRun(s, i, t, c, e);
    FitsTagAfterMaximalRun(s, i, t, c', e');
  }

  // A two-character literal at `i`, read character by character.
  lemma AtPair(s: string, i: nat, lit: string)
    requires |lit| == 2
    ensures At(s, i, lit) <==> i + 2 <= |s| && s[i] == lit[0] && s[i + 1] == lit[1]
  {
    if i + 2 <= |s| && s[i] == lit[0] && s[i + 1] == lit[1] {
      assert s[i..i + 2] == lit;
    }
  }

  // The group of a match is non-empty, holds no newline, and holds no `*/`
  // except possibly at its very first character.
  lemma {:induction false} MatchedGroupShape(s: string, i: nat, t: Tag, c: nat, e: nat)
    requires Matches(s, i, t, c, e)
    ensures var v := s[c..e];
      && |v| > 0
      && (forall j :: 0 <= j < |v| ==> v[j] != '\n')
      && (forall j :: 1 <= j < |v| ==> !At(v, j, "*/"))
  {
    assert NoNewline(s, c, e);
    SliceNoNewline(s, c, e);
    SliceNoClose(s, c, e);
  }

  // A newline-free stretch of `s`, cut out, holds no newline.
  lemma SliceNoNewline(s: string, lo: nat, hi: nat)
    requires lo <= hi <= |s| && NoNewline(s, lo, hi)
    ensures forall j :: 0 <= j < |s[lo..hi]| ==> s[lo..hi][j] != '\n'
  {
    forall j | 0 <= j < hi - lo ensures s[lo..hi][j] != '\n' {
      assert s[lo..hi][j] == s[lo + j];
    }
  }

  // A stretch of `s` with no `*/` starting inside it after its first
  // character, cut out, has none either.
  lemma SliceNoClose(s: string, lo: nat, hi: nat)
    requires lo <= hi <= |s|
    requires forall j :: lo < j < hi ==> !At(s, j, "*/")
    ensures forall j :: 1 <= j < |s[lo..hi]| ==> !At(s[lo..hi], j, "*/")
  {
    var v := s[lo..hi];
    forall j | 1 <= j < |v| ensures !At(v, j, "*/") {
      assert !At(s, lo + j, "*/");
      AtPair(v, j, "*/");
      AtPair(s, lo + j, "*/");
      if j + 1 < |v| {
        assert v[j] == s[lo + j] && v[j + 1] == s[lo + j + 1];
      }
    }
  }

  // Every capture has the shape of a matched group.
  lemma {:induction false} CaptureShape(s: string, t: Tag)
    requires Extract(s, t).Some?
    ensures var v := Extract(s, t).value;
      && |v| > 0
      && (forall j :: 0 <= j < |v| ==> v[j] != '\n')
      && (forall j :: 1 <= j < |v| ==> !At(v, j, "*/"))
  {
    var sp := Find(s, t).value;
    MatchedGroupShape(s, sp.open, t, sp.start, sp.end);
  }

  // Where a match sits in the text: a `/*`, then only `[\s\*]`
  // characters forming a maximal run, then the tag, then the group, then
  // `*/`.
  lemma MatchInContext(s: string, i: nat, t: Tag, c: nat, e: nat)
    requires Matches(s, i, t, c, e)
    ensures var k := c - |TagText(t)|;
      && i + 2 <= k
      && At(s, i, "/*")
      && AllRun(s, i + 2, k)
      && k == RunEnd(s, i + 2)
      && At(s, k, TagText(t))
      && At(s, e, "*/")
  {
    FitsTagAfterMaximalRun(s, i, t, c, e);
  }

  // Where a capture sits in the text.  Nothing after the tag is skipped,
  // so a capture may start with the space that follows `#include` or
  // `@Param`.
  lemma CaptureInContext(s: string, t: Tag)
    requires Extract(s, t).Some?
    ensures var sp := Find(s, t).value;
      var k := sp.start - |TagText(t)|;
      && sp.open + 2 <= k
      && At(s, sp.open, "/*")
      && AllRun(s, sp.open + 2, k)
      && k == RunEnd(s, sp.open + 2)
      && At(s, k, TagText(t))
      && Extract(s, t).value == s[sp.start..sp.end]
      && At(s, sp.end, "*/")
  {
    var sp := Find(s, t).value;
    MatchInContext(s, sp.open, t, sp.start, sp.end);
  }

  // The end of the greedy run is the first character outside `[\s\*]`.
  lemma RunEndIsFirstNonRun(s: string, j: nat, k: nat)
    requires j <= k < |s| && AllRun(s, j, k) && !IsRunChar(s[k])
    ensures RunEnd(s, j) == k
  {
  }

  // A text without any `/*` yields no capture for any tag.
  lemma NoOpeningNoCapture(s: string, t: Tag)
    requires forall i: nat :: !At(s, i, "/*")
    ensures Extract(s, t) == None
  {
  }

  // A comment block made of `/*`, any decoration, a tag and a text free of
  // newlines and `*` yields exactly that text, spaces included: nothing
  // after the tag is skipped and nothing before the `*/` is trimmed.
  lemma {:induction false} DecoratedBlockYieldsText(d: string, t: Tag, x: string)
    requires forall j :: 0 <= j < |d| ==> IsRunChar(d[j])
    requires |x| > 0
    requires forall j :: 0 <= j < |x| ==> x[j] != '\n' && x[j] != '*'
    ensures Extract("/*" + d + TagText(t) + x + "*/", t) == Some(x)
  {
    var s := "/*" + d + TagText(t) + x + "*/";
    var tag := TagText(t);
    var c := 2 + |d| + |tag|;
    var e := c + |x|;
    assert s[0..2] == "/*";
    assert s[c - |tag|..c] == tag;
    assert s[e..e + 2] == "*/";
    assert forall j :: 2 <= j < 2 + |d| ==> s[j] == d[j - 2];
    assert forall j :: c <= j < e ==> s[j] == x[j - c];
    forall j | c < j < e ensures !At(s, j, "*/") {
      AtPair(s, j, "*/");
    }
    assert Matches(s, 0, t, c, e);
    var sp := Find(s, t).value;
    assert sp.open == 0;
    MatchIsUnique(s, 0, t, c, e, sp.start, sp.end);
    assert s[c..e] == x;
  }

  // The comment block of a title and a description on successive lines.
  function TwoLineBlock(x: string, y: string): string
  {
    "/* File: " + x + "\n * Description: " + y + "\n */"
  }

  // In `TwoLineBlock(x, y)` the only `/` characters are the first and the
  // last, and a newline ends the title line.
  lemma {:induction false} TwoLineBlockChars(x: string, y: string)
    requires Free(x, '/') && Free(y, '/')
    ensures var s := TwoLineBlock(x, y);
      && |s| == |x| + |y| + 30
      && s[2] == ' ' && s[3] == 'F' && s[9 + |x|] == '\n'
      && (forall j :: 0 < j < |s| - 1 ==> s[j] != '/')
  {
    var s := TwoLineBlock(x, y);
    var a := "/* File: ";
    var b := "\n * Description: ";
    var z := "\n */";
    var n := |a| + |x|;
    var m := n + |b| + |y|;
    forall j | 0 < j < |s| - 1 ensures s[j] != '/' {
      if j < |a| {
        assert s[j] == a[j];
      } else if j < n {
        assert s[j] == x[j - |a|];
      } else if j < n + |b| {
        assert s[j] == b[j - n];
      } else if j < m {
        assert s[j] == y[j - n - |b|];
      } else {
        assert s[j] == z[j - m];
      }
    }
    assert s[n] == b[0];
  }

  // In `TwoLineBlock(x, y)` a fitting span can only open at index 0, where
  // the decoration is the single space before `File: `.
  lemma {:induction false} TwoLineBlockOpensOnce(x: string, y: string, t: Tag, i: nat, c: nat, e: nat)
    requires Free(x, '/') && Free(y, '/')
    requires Fits(TwoLineBlock(x, y), i, t, c, e)
    ensures i == 0 && c == 3 + |TagText(t)|
  {
    var s := TwoLineBlock(x, y);
    TwoLineBlockChars(x, y);
    AtPair(s, i, "/*");
    RunEndIsFirstNonRun(s, 2, 3);
    FitsTagAfterMaximalRun(s, i, t, c, e);
  }

  // A title and a description written on successive lines of one comment
  // block are not found: the title's group would have to cross a newline
  // to reach the `*/`, and the description tag is not the first thing
  // after the only `/*`.
  lemma {:induction false} TwoLineBlockMatchesNeither(x: string, y: string)
    requires Free(x, '/') && Free(y, '/')
    ensures Extract(TwoLineBlock(x, y), File) == None
    ensures Extract(TwoLineBlock(x, y), Description) == None
  {
    var s := TwoLineBlock(x, y);
    TwoLineBlockChars(x, y);
    forall i: nat, c: nat, e: nat | Fits(s, i, File, c, e) ensures false {
      TwoLineBlockOpensOnce(x, y, File, i, c, e);
      AtPair(s, e, "*/");
    }
    assert NoMatch(s, File);
    forall i: nat, c: nat, e: nat | Fits(s, i, Description, c, e) ensures false {
      TwoLineBlockOpensOnce(x, y, Description, i, c, e);
    }
    assert NoMatch(s, Description);
  }
}

=== FILE: selection.dfy ===
// Choosing the source files to document.  The directory walk itself is
// not modelled: it is given as the sequence of (directory, file names)
// entries `os.walk` would produce, in its order.  The user's filter is a
// regular expression whose `match` (anchored at the start of the name) is
// given as the function `matches(pattern, name)`.
module Selection {
  import opened Options
  import opened Text
  import opened Paths

  // One step of the walk: a directory and the names of the files in it.
  datatype WalkEntry = WalkEntry(root: string, files: seq<string>)

  // A filter applies only when it is given and not empty: the generator
  // tests it for truth, so the empty text of a blank entry field means no
  // filter at all.
  predicate Truthy(filter: Option<string>)
  {
    filter.Some? && filter.value != ""
  }

  // Every file of one directory joined to the directory, in order.  A
  // plain file name (no `/`) lands directly in the directory, one `/` after
  // it, and is its path's base name.
  function JoinAll(root: string, files: seq<string>): (r: seq<string>)
    ensures |r| == |files|
    ensures forall k {:trigger r[k]} :: 0 <= k < |files| && Free(files[k], '/') ==>
      && Basename(r[k]) == files[k]
      && |r[k]| == |DirPrefix(root)| + |files[k]|
      && r[k][..|root|] == root
  {
    var r := seq(|files|, k requires 0 <= k < |files| => Join(root, files[k]));
    forall k | 0 <= k < |files| && Free(files[k], '/')
      ensures Basename(r[k]) == files[k]
      ensures |r[k]| == |DirPrefix(root)| + |files[k]|
      ensures r[k][..|root|] == root
    {
      BasenameOfJoin(root, files[k]);
      if |files[k]| > 0 {
        assert files[k][0] != '/';
      }
      JoinRelative(root, files[k]);
    }
    r
  }

  // The files of one directory whose name the filter matches, joined to
  // the directory, in order.
  function KeptIn(root: string, files: seq<string>, pattern: string, matches: (string, string) -> bool): seq<string>
  {
    if files == [] then []
    else
      var last := files[|files| - 1];
      KeptIn(root, files[..|files| - 1], pattern, matches)
        + (if matches(pattern, last) then [Join(root, last)] else [])
  }

  // Every walked file, joined to its directory, in walk order.
  function AllPaths(walk: seq<WalkEntry>): seq<string>
  {
    if walk == [] then []
    else AllPaths(walk[..|walk| - 1]) + JoinAll(walk[|walk| - 1].root, walk[|walk| - 1].files)
  }

  // Every walked file whose name the filter matches, in walk order.
  function Kept(walk: seq<WalkEntry>, pattern: string, matches: (string, string) -> bool): seq<string>
  {
    if walk == [] then []
    else Kept(walk[..|walk| - 1], pattern, matches) + KeptIn(walk[|walk| - 1].root, walk[|walk| - 1].files, pattern, matches)
  }

  // The files to process.
  function Candidates(walk: seq<WalkEntry>, filter: Option<string>, matches: (string, string) -> bool): seq<string>
  {
    if Truthy(filter) then Kept(walk, filter.value, matches) else AllPaths(walk)
  }

  // The selection loop of the generator.
  method SelectFiles(walk: seq<WalkEntry>, filter: Option<string>, matches: (string, string) -> bool)
    returns (files: seq<string>)
    ensures files == Candidates(walk, filter, matches)
    ensures !Truthy(filter) ==> files == AllPaths(walk)
  {
    files := [];
    if Truthy(filter) {
      var pattern := filter.value;
      var i := 0;
      while i < |walk|
        invariant 0 <= i <= |walk|
        invariant files == Kept(walk[..i], pattern, matches)
      {
        var entry := walk[i];
        var j := 0;
        while j < |entry.files|
          invariant 0 <= j <= |entry.files|
          invariant files == Kept(walk[..i], pattern, matches) + KeptIn(entry.root, entry.files[..j], pattern, matches)
        {
          assert entry.files[..j + 1][..j] == entry.files[..j];
          if matches(pattern, entry.files[j]) {
            files := files + [Join(entry.root, entry.files[j])];
          }
          j := j + 1;
        }
        assert entry.files[..j] == entry.files;
        assert walk[..i + 1][..i] == walk[..i];
        i := i + 1;
      }
      assert walk[..i] == walk;
    } else {
      var i := 0;
      while i < |walk|
        invariant 0 <= i <= |walk|
        invariant files == AllPaths(walk[..i])
      {
        assert walk[..i + 1][..i] == walk[..i];
        files := files + JoinAll(walk[i].root, walk[i].files);
        i := i + 1;
      }
      assert walk[..i] == walk;
    }
  }
}

// What the selection yields, stated without the walk's nesting.
module SelectionFacts {
  import opened Options
  import opened Text
  import opened Paths
  import opened Selection

  // The elements of `xs` that `keep` accepts, in order.
  function FilterSeq(xs: seq<string>, keep: string -> bool): (r: seq<string>)
    ensures |r| <= |xs|
    ensures forall x :: x in r <==> x in xs && keep(x)
  {
    if xs == [] then []
    else
      var last := xs[|xs| - 1];
      assert xs == xs[..|xs| - 1] + [last];
      FilterSeq(xs[..|xs| - 1], keep) + (if keep(last) then [last] else [])
  }

  // Filtering keeps the order: filtering two runs one after the other is
  // filtering each.
  lemma {:induction false} FilterSeqAppend(a: seq<string>, b: seq<string>, keep: string -> bool)
    ensures FilterSeq(a + b, keep) == FilterSeq(a, keep) + FilterSeq(b, keep)
    decreases |b|
  {
    if b == [] {
      assert a + b == a;
    } else {
      var n := |b| - 1;
      var init := b[..n];
      assert b == init + [b[n]];
      assert a + b == (a + init) + [b[n]];
      var last := if keep(b[n]) then [b[n]] else [];
      FilterSeqSnoc(a + init, b[n], keep);
      assert FilterSeq(a + b, keep) == FilterSeq(a + init, keep) + last;
      FilterSeqSnoc(init, b[n], keep);
      assert FilterSeq(b, keep) == FilterSeq(init, keep) + last;
      FilterSeqAppend(a, init, keep);
      assert FilterSeq(a + b, keep) == (FilterSeq(a, keep) + FilterSeq(init, keep)) + last;
    }
  }

  // The walk lists plain names: no file name holds a `/`.
  predicate PlainNames(walk: seq<WalkEntry>)
  {
    forall i, j :: 0 <= i < |walk| && 0 <= j < |walk[i].files| ==> Free(walk[i].files[j], '/')
  }

  // A plain file name is joined directly inside its directory: the
  // directory, one `/` unless it already ends in one, then the name.
  lemma JoinAllDirectlyIn(root: string, files: seq<string>, k: nat)
    requires k < |files| && Free(files[k], '/')
    ensures JoinAll(root, files)[k] == DirPrefix(root) + files[k]
  {
    DirectlyIn(JoinAll(root, files)[k], root, files[k]);
  }

  // Adding one file to a directory's list adds its joined path at the end.
  lemma JoinAllSnoc(root: string, files: seq<string>)
    requires files != []
    ensures var n := |files| - 1;
      JoinAll(root, files) == JoinAll(root, files[..n]) + [Join(root, files[n])]
  {
    var n := |files| - 1;
    var all := JoinAll(root, files);
    var front := JoinAll(root, files[..n]);
    forall k | 0 <= k < |files| ensures all[k] == (front + [Join(root, files[n])])[k] {
      if k < n {
        assert files[..n][k] == files[k];
      }
    }
  }

  // Filtering a list with one more element at the end.
  lemma FilterSeqSnoc(xs: seq<string>, x: string, keep: string -> bool)
    ensures FilterSeq(xs + [x], keep) == FilterSeq(xs, keep) + (if keep(x) then [x] else [])
  {
    assert (xs + [x])[..|xs|] == xs;
  }

  // `KeptInIsFilter` for a `keep` that tests the base name with the filter.
  lemma {:induction false} KeptInIsFilterBy(root: string, files: seq<string>, pattern: string,
                                            matches: (string, string) -> bool, keep: string -> bool)
    requires forall j :: 0 <= j < |files| ==> Free(files[j], '/')
    requires forall x :: keep(x) == matches(pattern, Basename(x))
    ensures KeptIn(root, files, pattern, matches) == FilterSeq(JoinAll(root, files), keep)
  {
    if files != [] {
      var n := |files| - 1;
      var last := Join(root, files[n]);
      KeptInIsFilterBy(root, files[..n], pattern, matches, keep);
      BasenameOfJoin(root, files[n]);
      JoinAllSnoc(root, files);
      FilterSeqSnoc(JoinAll(root, files[..n]), last, keep);
    }
  }

  // In one directory, the filtered files are the joined paths whose base
  // name the filter matches.
  lemma KeptInIsFilter(root: string, files: seq<string>, pattern: string, matches: (string, string) -> bool)
    requires forall j :: 0 <= j < |files| ==> Free(files[j], '/')
    ensures KeptIn(root, files, pattern, matches) == FilterSeq(JoinAll(root, files), x => matches(pattern, Basename(x)))
  {
    KeptInIsFilterBy(root, files, pattern, matches, x => matches(pattern, Basename(x)));
  }

  // With a filter, the selection is the unfiltered selection cut down to
  // the paths whose base name the filter matches, order kept.
  lemma {:induction false} FilteredIsFilterOfAll(walk: seq<WalkEntry>, pattern: string, matches: (string, string) -> bool)
    requires PlainNames(walk)
    ensures Kept(walk, pattern, matches) == FilterSeq(AllPaths(walk), x => matches(pattern, Basename(x)))
  {
    if walk != [] {
      var n := |walk| - 1;
      var keep := x => matches(pattern, Basename(x));
      assert PlainNames(walk[..n]);
      FilteredIsFilterOfAll(walk[..n], pattern, matches);
      KeptInIsFilter(walk[n].root, walk[n].files, pattern, matches);
      FilterSeqAppend(AllPaths(walk[..n]), JoinAll(walk[n].root, walk[n].files), keep);
    }
  }

  // The paths of a walk with one more entry at the end.
  lemma AllPathsSnoc(walk: seq<WalkEntry>, e: WalkEntry)
    ensures AllPaths(walk + [e]) == AllPaths(walk) + JoinAll(e.root, e.files)
  {
    assert (walk + [e])[..|walk|] == walk;
  }

  // The paths of two walks one after the other.
  lemma {:induction false} AllPathsAppend(a: seq<WalkEntry>, b: seq<WalkEntry>)
    ensures AllPaths(a + b) == AllPaths(a) + AllPaths(b)
    decreases |b|
  {
    if b == [] {
      assert a + b == a;
    } else {
      var n := |b| - 1;
      var init := b[..n];
      var tail := JoinAll(b[n].root, b[n].files);
      assert b == init + [b[n]];
      assert a + b == (a + init) + [b[n]];
      AllPathsSnoc(a + init, b[n]);
      AllPathsSnoc(init, b[n]);
      AllPathsAppend(a, init);
      Regroup(AllPaths(a + b), AllPaths(a + init), AllPaths(a), AllPaths(init), AllPaths(b), tail);
    }
  }

  // `whole` is `front` then `tail`, `front` is `x` then `mid`, and `y` is
  // `mid` then `tail`: so `whole` is `x` then `y`.
  lemma Regroup(whole: seq<string>, front: seq<string>, x: seq<string>, mid: seq<string>, y: seq<string>, tail: seq<string>)
    requires whole == front + tail && front == x + mid && y == mid + tail
    ensures whole == x + y
  {
  }

  // Without a filter, the selection is every walked file joined to its
  // directory, in walk order: the files of entry `i` come, in their order,
  // after those of every earlier entry and before those of every later one.
  lemma {:induction false} UnfilteredIsEveryFile(walk: seq<WalkEntry>, i: nat)
    requires i < |walk|
    ensures AllPaths(walk) == AllPaths(walk[..i]) + JoinAll(walk[i].root, walk[i].files) + AllPaths(walk[i + 1..])
  {
    assert walk == walk[..i] + [walk[i]] + walk[i + 1..];
    AllPathsAppend(walk[..i] + [walk[i]], walk[i + 1..]);
    AllPathsAppend(walk[..i], [walk[i]]);
    assert [walk[i]][..0] == [];
  }

  // A blank filter selects the same files as no filter at all: every
  // walked file.
  lemma BlankFilterIsNoFilter(walk: seq<WalkEntry>, matches: (string, string) -> bool)
    ensures Candidates(walk, Some(""), matches) == Candidates(walk, None, matches) == AllPaths(walk)
  {
  }
}

=== FILE: text.dfy ===
// Small facts about strings shared by the other modules.
module Text {

  // No `ch` occurs in `s`.
  predicate Free(s: string, ch: char)
  {
    forall j :: 0 <= j < |s| ==> s[j] != ch
  }

  // Concatenation keeps a character out.
  lemma FreeConcat(a: string, b: string, ch: char)
    requires Free(a, ch) && Free(b, ch)
    ensures Free(a + b, ch)
  {
    forall j | 0 <= j < |a + b| ensures (a + b)[j] != ch {
      if j >= |a| {
        assert (a + b)[j] == b[j - |a|];
      }
    }
  }
}
